=== FILE: README.md ===
# Capture-context lifecycle of a V4L2 multi-planar HDMI capture device

This project models the capture context of `camera_hdmi.c`: a single
memory-mapped buffer on a V4L2 multi-planar capture device, taken through
the sequence of the V4L2 "Streaming I/O (Memory Mapping)" interface.

- **Creation** (`camera_create`): allocate the context, open the device,
  QUERYCAP, G_FMT, S_FMT with the format G_FMT reported, REQBUFS for one
  buffer, QUERYBUF of buffer 0, mmap of each plane (undoing the mappings
  made so far if one fails), then QBUF of every granted buffer (undoing
  every mapping if one fails).
- **Start** (`camera_start`): STREAMON; only its success sets `streaming`.
- **Capture** (`camera_capture_frame`): guard, DQBUF, dispatch on the
  pixel-format tag, a `(height + height/2)` by `width` single-channel view
  over plane 0, colour conversion, re-QBUF.
- **Teardown** (`camera_destroy`): STREAMOFF if streaming, munmap of every
  plane whose pointer is not MAP_FAILED, close.

The device is an oracle. Each step is a pure function that takes the
device's replies as parameters. It returns the new context together with
the trace of kernel calls it made, each call tagged with its outcome.

The kernel-side state that matters is:

- whether the device file is open;
- which planes are mapped;
- who owns buffer 0;
- whether the queue is streaming.

This state is obtained by replaying a trace (`Syscalls.Apply`). The central
invariant is that the context's own record (`Camera.View`) equals the
replayed state after every step.

Modules:

| file | module | contents |
|---|---|---|
| wrappers.dfy | `Wrappers` | `Option`, `Result` |
| v4l2.dfy | `V4l2` | VIDEO_MAX_PLANES, fourcc tags, `Format`, `Owner`, `Slot` |
| decoder.dfy | `Decoder` | tag dispatch, plane-0 view, uninterpreted conversion |
| syscalls.dfy | `Syscalls` | kernel calls, kernel-side state, trace replay and counting |
| camera.dfy | `Camera` | the context and the four operations |
| accounting.dfy | `Accounting` | what each creation path does to the kernel-side state |
| lifecycle.dfy | `Lifecycle` | start/capture/destroy tracking, sessions, whole lifetimes, quirks |

The model keeps these behaviours of the code:

- a format with zero planes is not rejected;
- the decode-failure paths do not re-queue the buffer;
- STREAMON is issued without checking that a buffer is queued;
- the NV24 case uses the I420 conversion;
- a failed capture is reported as `false`, not as a distinct
  "not streaming" error;
- after an early return or a failed re-QBUF, the next capture issues DQBUF
  of a buffer the application still owns (`Lifecycle.EarlyReturnBreaksDequeue`).

## Model

| member | source | states |
|---|---|---|
| Decoder.ConversionFor | camera_hdmi.c:189-248 | a conversion is chosen exactly for the tags NV24, NV21 and NV12; NV21 and NV12 get their own conversions, NV24 gets the I420 one |
| Decoder.PlaneView | camera_hdmi.c:197-202 | the view over plane 0 reads `width * (height + height/2)` bytes and stays in bounds exactly when the plane holds that many |
| Decoder.Decode | camera_hdmi.c:189-248 | an unsupported tag fails with UnsupportedEncoding whatever the pointer; a supported tag with a NULL plane-0 pointer fails with InvalidBuffer; otherwise the frame is the chosen conversion of the `(h + h/2) x w` view of plane 0 |
| Decoder.DecodeDeterministic | camera_hdmi.c:197-203 | decoding depends only on the bytes, width, height, tag and whether plane 0's pointer is NULL |
| Decoder.TwoPlaneViewOverrunsPlaneZero | camera_hdmi.c:240 | for every width and every height of two rows or more, when plane 0 holds only the `width * height` luma bytes of a two-plane layout, the view runs past plane 0 |
| Camera.BytesUsed | camera_hdmi.c:139-142 | the initial QBUF carries one bytesused per plane, equal to that plane's sizeimage |
| Camera.MapPlanes | camera_hdmi.c:113-126 | the mapping loop either maps every plane or stops at the first plane that fails; each plane before the stop is mapped exactly once and nothing is unmapped |
| Camera.Rollback | camera_hdmi.c:120-121 | the rollback unmaps each plane in the range exactly once and maps nothing |
| Camera.QueueBuffers | camera_hdmi.c:129-152 | the queueing loop either queues every granted index once, in order, each with the same bytesused, or queues indices up to the first failing one in order and stops right after that failed QBUF |
| Camera.Fresh | camera_hdmi.c:24 | a new context is valid and not streaming; buffer 0 belongs to the device exactly when at least one buffer was granted |
| Camera.MapAndQueue | camera_hdmi.c:113-154 | after QUERYBUF a context is handed out exactly when every mapping and every initial QBUF succeeds; every failure ends by closing the device |
| Camera.MapAndQueueClosesOnce | camera_hdmi.c:113-154 | past QUERYBUF, creation closes the device at most once, as its last call, and not at all when it hands out a context |
| Camera.NegotiationCalls | camera_hdmi.c:27-111 | a successful negotiation opens the device, requests exactly one buffer, and makes no other call that changes kernel-side state |
| Camera.Create | camera_hdmi.c:23-155 | a context is returned exactly when every reply succeeds; it is valid, not streaming, and carries the format S_FMT returned and the buffer count REQBUFS granted; REQBUFS always asks for one buffer; every failure after open ends in close; close is issued at most once, as the last call, and never when a context is returned |
| Camera.Start | camera_hdmi.c:157-168 | the call succeeds exactly when there is a context and STREAMON succeeds; only then does `streaming` become true; a failed start leaves the context unchanged |
| Camera.CaptureFrame | camera_hdmi.c:170-256 | with no context or not streaming it returns false and makes no call; it reports a frame exactly when the dequeue succeeds, the tag is supported and plane 0 is not NULL; the frame is the chosen conversion of the plane-0 view; a re-QBUF of the dequeued buffer is issued exactly on the paths that report a frame, as the last call, whatever its outcome, so the early returns never re-queue; a failed dequeue leaves the context unchanged; after a successful dequeue the owner is the device only if the frame was decoded and re-QBUF succeeded; it returns true even if re-QBUF fails |
| Camera.Release | camera_hdmi.c:266-270 | teardown unmaps each plane below num_planes whose pointer is not MAP_FAILED exactly once and no other plane |
| Camera.Destroy | camera_hdmi.c:258-274 | a null context makes no call; otherwise STREAMOFF is issued exactly when streaming, and first; each eligible plane is unmapped once; close is issued once, as the last call, after every unmap |
| Accounting.MapPlanesEffect | camera_hdmi.c:113-126 | the mapping loop adds exactly the planes it reached to the mapped set |
| Accounting.RollbackEffect | camera_hdmi.c:120-121 | the rollback removes exactly its planes from the mapped set |
| Accounting.QueueBuffersEffect | camera_hdmi.c:129-152 | the queueing loop gives buffer 0 to the device exactly when its QBUF succeeds, and only queues it while the application owns it |
| Accounting.ReleaseEffect | camera_hdmi.c:266-270 | teardown removes exactly the non-MAP_FAILED planes below num_planes from the mapped set |
| Accounting.NegotiatedMapping | camera_hdmi.c:27-126 | after negotiation and the mapping loop the device is open, exactly the planes the loop reached are mapped, buffer 0 is with the application and nothing has been queued |
| Accounting.RollbackThenClose | camera_hdmi.c:120-122 | unmapping every mapped plane and closing leaves nothing open or mapped |
| Camera.RefusalCalls | camera_hdmi.c:27-111 | a negotiation that fails after open has opened the device, made only calls that change no kernel-side state, and requested one buffer if it got that far |
| Accounting.CreateRefusedEarly | camera_hdmi.c:29-111 | a failure before any mapping returns no context, maps and unmaps nothing, leaves nothing open, and ends with close once open has succeeded |
| Accounting.CreateMapFailure | camera_hdmi.c:113-126 | if plane k fails to map, exactly planes 0..k-1 are mapped and each is unmapped once; nothing is queued; the device is closed and no context is returned |
| Accounting.CreateQueueFailure | camera_hdmi.c:144-151 | if an initial QBUF fails, all num_planes planes are unmapped once each, the device is closed and no context is returned |
| Accounting.CreateSuccess | camera_hdmi.c:129-154 | after success the kernel holds the open device, planes 0..num_planes-1 mapped once each, and no streaming; each granted buffer is queued once with bytesused equal to sizeimage; buffer 0 belongs to the device exactly when a buffer was granted |
| Accounting.CreateAccounting | camera_hdmi.c:23-155 | on every path the context's record equals the kernel state its calls produced; without a context nothing is left open or mapped and each plane is unmapped exactly as often as it was mapped |
| Lifecycle.StartTracks | camera_hdmi.c:157-168 | STREAMON changes the kernel-side state exactly as the context's new `streaming` flag says |
| Lifecycle.CaptureTracks | camera_hdmi.c:181-255 | the owner the context records after a capture is the one DQBUF and re-QBUF leave in the kernel; the buffer is re-queued only after being dequeued; no plane is mapped or unmapped |
| Lifecycle.DestroyReleases | camera_hdmi.c:258-274 | tearing down a valid context closes the device, leaves no plane mapped, stops streaming and returns buffer 0 to the application |
| Lifecycle.Step | camera_hdmi.c:157-256 | a start or a capture keeps format, buffer count, plane lengths and mappings fixed, and yields at most one frame |
| Lifecycle.Run | camera_hdmi.c:157-256 | across any sequence of starts and captures the format, buffer count and mappings stay fixed, with at most one frame per event |
| Lifecycle.RunTracks | camera_hdmi.c:157-256 | across any session the context's record keeps matching the kernel state, buffer 0 is never queued while the device owns it, and nothing is mapped or unmapped |
| Lifecycle.LifetimeReleasesEverything | camera_hdmi.c:23-274 | for every device reply and every session, create, session and destroy end with nothing open or mapped; each plane is unmapped exactly as often as it was mapped, at most once; buffer 0 is never queued twice without a dequeue between |
| Lifecycle.EarlyReturnStarves | camera_hdmi.c:182-248 | once an early return leaves buffer 0 with the application, against a device that completes DQBUF only while it owns the buffer no later event yields a frame, and the buffer stays with the application |
| Lifecycle.StepDequeues | camera_hdmi.c:171-186 | a start or capture issues DQBUF of buffer 0 only while the device owns it exactly when it is not a capture on a streaming context or the device does own the buffer |
| Lifecycle.RunDequeues | camera_hdmi.c:170-256 | over a session, every DQBUF of buffer 0 is issued while the device owns it exactly when every capture on a streaming context finds the buffer with the device |
| Lifecycle.EarlyReturnBreaksDequeue | camera_hdmi.c:182-253 | after a successful DQBUF followed by an early return or a failed re-QBUF, a following capture issues DQBUF of an application-owned buffer, so the dequeue half of the ownership protocol fails |
| Lifecycle.CaptureViewFits | camera_hdmi.c:197-241 | when the reply carries plane 0's whole mapping, a decoded frame's view stays in bounds exactly when plane 0's QUERYBUF length is at least `width * (height + height/2)` |
| Lifecycle.ZeroPlanesAccepted | camera_hdmi.c:113-142 | a format with zero planes is not rejected: creation maps nothing, keeps plane 0's pointer NULL, and still returns a context |
| Lifecycle.ZeroPlanesNeverCapture | camera_hdmi.c:189-230 | a zero-plane context never yields a frame, and every successfully dequeued buffer is left with the application |

## Left out

- Kernel semantics of `open`, `ioctl`, `mmap`, `munmap` and `close`, and the V4L2 struct layouts: each call is reduced to a success or failure outcome, plus the data it reports (format, granted count, plane lengths, plane-0 bytes).
- The effect of a call on the kernel-side state (`Syscalls.Effect`) follows the V4L2 interface: QBUF hands a buffer to the device, DQBUF hands it back, STREAMOFF and close hand every buffer back, and a mapping outlives close.
- The YUV to BGR arithmetic of the colour conversion: a frame is the uninterpreted term `Converted(view, code)`.
- Diagnostic printing to stdout and stderr: this is I/O only.
- Reading past plane 0 when the view is larger than the plane: the model records the view and states when it fits (`Decoder.Covers`), and does not model what an out-of-bounds read returns.
- Pointer hazards: teardown reads plane lengths through `ctx->buf.m.planes`. That pointer first names the on-stack array of creation, which is dangling once creation returns. After a capture that returns false it names the array freed at camera_hdmi.c:184, 193, 209, 228 or 246, and the pointer is not reset. main.cpp takes this path whenever a capture fails: its loop breaks, then destroy runs. The model replaces these reads with the plane lengths QUERYBUF reported, kept in the context.
- The per-capture plane array that is never freed on the success path is kept only as a counter, `leakedPlaneArrays`.
- CaptureFrame: assumes DQBUF returns buffer index 0. The code reads plane 0 of buffer 0 whatever index DQBUF returns, and re-queues the index DQBUF returned. With more than one granted buffer the device could return another index; that case is not modelled.
- Buffers with index 1 and above are queued at creation but never mapped. The model tracks ownership of buffer 0 only.
- Width and height are read from unsigned 32-bit fields into `int`. The model uses unbounded naturals, so values at or above 2^31 are not modelled.
- Decode: the colour conversion itself cannot fail in the model. `cv::cvtColor` throws on an empty view, an odd width, or a row count that is not a multiple of 3, which includes every odd height. Nothing catches the exception, so such a capture neither returns nor re-queues the buffer. That failure is not modelled.
- CaptureFrame: reports a frame for every supported tag with a non-NULL plane 0, including the views on which the conversion would throw (see the Decode line).
- Decoder.PlaneView: `Covers` is stated over the bytes the DQBUF reply carries. Their length is tied to plane 0's QUERYBUF length only under `Lifecycle.CaptureViewFits`'s precondition.
- The device's replies are assumed to report at most VIDEO_MAX_PLANES (8) planes (`V4l2.PlaneCount`). `num_planes` is an 8-bit field, and a larger value would index `buffers[8]` out of bounds; that is not modelled.
- STREAMOFF, munmap and close carry no outcome, because the code ignores their results (camera_hdmi.c:263, 268, 272). Their effect is modelled as if they always succeed.
- LifetimeReleasesEverything: covers lifetimes that terminate. The device file is opened blocking (camera_hdmi.c:28). After a failed re-QBUF (camera_hdmi.c:251-253), which still returns true, or after an early return that left the buffer dequeued (camera_hdmi.c:191-195, 207-211, 226-230, 244-247), the caller may capture again, and the DQBUF at camera_hdmi.c:182 then waits for ever on a buffer the application holds, so teardown is never reached. The model represents that wait as a failed DQBUF reply, which returns false and lets teardown run.
- The DV-timings query is commented out in the source and is not modelled.
- The `frame` output parameter is left untouched on every `false` return. The model reports no frame in that case.
- main.cpp is driver glue (video file output, key polling, fixed 1920x1080 size) and is not part of this model. camera_hdmi.h holds only declarations.

=== FILE: accounting.dfy ===
/** Resource accounting for camera creation and for the teardown loop:
    what the calls of each creation path do to the kernel-side state, and
    how many times each plane is mapped and unmapped. */
module Accounting {
  import opened Wrappers
  import opened V4l2
  import opened Syscalls
  import opened Camera

  lemma ApplyCons(k: Kernel, c: Syscall, t: seq<Syscall>)
    ensures Apply(k, [c] + t) == Apply(Effect(k, c), t)
    ensures QueuesFromApp(k, [c] + t) <==> (c.Queue? && c.index == 0 ==> k.owner == App) && QueuesFromApp(Effect(k, c), t)
  {
    assert ([c] + t)[0] == c;
    assert ([c] + t)[1..] == t;
  }

  // ---------------------------------------------------------------------
  // The loops
  // ---------------------------------------------------------------------

  /** One turn of the mapping loop when plane i maps. */
  lemma MapPlanesUnfold(i: nat, n: PlaneCount, lengths: PlaneArray, fails: set<nat>)
    requires i < n && i !in fails
    ensures MapPlanes(i, n, lengths, fails).calls == [Mmap(i, lengths[i], true)] + MapPlanes(i + 1, n, lengths, fails).calls
    ensures MapReached(MapPlanes(i, n, lengths, fails), n) == MapReached(MapPlanes(i + 1, n, lengths, fails), n)
  {
  }

  /** The mapping loop adds exactly the planes it reached to the mapped set. */
  lemma {:induction false} MapPlanesEffect(k: Kernel, i: nat, n: PlaneCount, lengths: PlaneArray, fails: set<nat>)
    requires i <= n
    ensures Apply(k, MapPlanes(i, n, lengths, fails).calls)
      == k.(mapped := k.mapped + PlaneRange(i, MapReached(MapPlanes(i, n, lengths, fails), n)))
    decreases n - i
  {
    if i < n && i !in fails {
      var call := Mmap(i, lengths[i], true);
      var rest := MapPlanes(i + 1, n, lengths, fails);
      MapPlanesUnfold(i, n, lengths, fails);
      ApplyCons(k, call, rest.calls);
      var k' := k.(mapped := k.mapped + {i});
      MapPlanesEffect(k', i + 1, n, lengths, fails);
      var reached := MapReached(rest, n);
      assert k'.mapped + PlaneRange(i + 1, reached) == k.mapped + PlaneRange(i, reached);
    } else if i < n {
      ApplyCons(k, Mmap(i, lengths[i], false), []);
    }
  }

  /** A rollback loop removes exactly planes i..hi-1 from the mapped set. */
  lemma {:induction false} RollbackEffect(k: Kernel, i: nat, hi: nat, lengths: PlaneArray)
    requires i <= hi <= MaxPlanes
    ensures Apply(k, Rollback(i, hi, lengths)) == k.(mapped := k.mapped - PlaneRange(i, hi))
    decreases hi - i
  {
    if i < hi {
      var call := Munmap(i, lengths[i]);
      ApplyCons(k, call, Rollback(i + 1, hi, lengths));
      var k' := k.(mapped := k.mapped - {i});
      RollbackEffect(k', i + 1, hi, lengths);
      assert k'.mapped - PlaneRange(i + 1, hi) == k.mapped - PlaneRange(i, hi);
    }
  }

  /** One turn of the queueing loop when buffer i queues. */
  lemma QueueBuffersUnfold(i: nat, count: nat, used: seq<nat>, fails: set<nat>)
    requires i < count && i !in fails
    ensures QueueBuffers(i, count, used, fails).calls == [Queue(i, used, true)] + QueueBuffers(i + 1, count, used, fails).calls
  {
  }

  /** The initial queueing loop hands buffer 0 to the device exactly when
      its QBUF succeeds, and queues it only while the application owns it. */
  lemma {:induction false} QueueBuffersEffect(k: Kernel, i: nat, count: nat, used: seq<nat>, fails: set<nat>)
    requires i <= count
    requires i == 0 ==> k.owner == App
    ensures Apply(k, QueueBuffers(i, count, used, fails).calls)
      == k.(owner := if i == 0 && 0 < count && 0 !in fails then Device else k.owner)
    ensures QueuesFromApp(k, QueueBuffers(i, count, used, fails).calls)
    decreases count - i
  {
    if i < count && i !in fails {
      var call := Queue(i, used, true);
      var rest := QueueBuffers(i + 1, count, used, fails);
      QueueBuffersUnfold(i, count, used, fails);
      ApplyCons(k, call, rest.calls);
      QueueBuffersEffect(Effect(k, call), i + 1, count, used, fails);
    } else if i < count {
      ApplyCons(k, Queue(i, used, false), []);
    }
  }

  /** The planes the teardown loop unmaps. */
  function ReleasedPlanes(i: nat, n: PlaneCount, slots: SlotArray): (r: set<nat>)
    requires i <= n
    ensures forall p :: p in r <==> i <= p < n && slots[p] != MapFailed
    decreases n - i
  {
    if i == n then {}
    else if slots[i] != MapFailed then {i} + ReleasedPlanes(i + 1, n, slots)
    else ReleasedPlanes(i + 1, n, slots)
  }

  /** The teardown loop removes exactly the planes it unmaps from the
      mapped set. */
  lemma {:induction false} ReleaseEffect(k: Kernel, i: nat, n: PlaneCount, slots: SlotArray, lengths: PlaneArray)
    requires i <= n
    ensures Apply(k, Release(i, n, slots, lengths)) == k.(mapped := k.mapped - ReleasedPlanes(i, n, slots))
    decreases n - i
  {
    if i < n {
      if slots[i] != MapFailed {
        var call := Munmap(i, lengths[i]);
        ApplyCons(k, call, Release(i + 1, n, slots, lengths));
        var k' := k.(mapped := k.mapped - {i});
        ReleaseEffect(k', i + 1, n, slots, lengths);
        assert k'.mapped - ReleasedPlanes(i + 1, n, slots) == k.mapped - ReleasedPlanes(i, n, slots);
      } else {
        ReleaseEffect(k, i + 1, n, slots, lengths);
      }
    }
  }

  /** A trace of QBUF calls neither maps nor unmaps. */
  lemma {:induction false} QueueCallsOnly(t: seq<Syscall>, p: nat)
    requires forall j :: 0 <= j < |t| ==> t[j].Queue?
    ensures Occurrences(t, MapOf(p)) == 0 && Occurrences(t, UnmapOf(p)) == 0
    decreases |t|
  {
    if |t| > 0 {
      QueueCallsOnly(t[1..], p);
    }
  }

  /** A run of QBUF calls for indices i, i+1, ..., hi-1 queues each index
      in that range once. */
  lemma {:induction false} QueuedOnce(t: seq<Syscall>, i: nat, hi: nat, used: seq<nat>, b: nat)
    requires i <= hi && |t| == hi - i
    requires forall j :: 0 <= j < |t| ==> t[j] == Queue(i + j, used, true)
    ensures Occurrences(t, QueueOf(b)) == (if i <= b < hi then 1 else 0)
    decreases |t|
  {
    if |t| > 0 {
      assert t[0] == Queue(i, used, true);
      QueuedOnce(t[1..], i + 1, hi, used, b);
    }
  }

  // ---------------------------------------------------------------------
  // Creation, path by path
  // ---------------------------------------------------------------------

  /** A failure before any mapping (allocation, open, QUERYCAP, G_FMT,
      S_FMT, REQBUFS, QUERYBUF) hands back no context, maps and unmaps
      nothing, and, once open has succeeded, ends by closing the device. */
  lemma CreateRefusedEarly(s: SetupReplies)
    requires !Negotiates(s)
    ensures Create(s).ctx.None?
    ensures Apply(Released, Create(s).calls) == Released
    ensures QueuesFromApp(Released, Create(s).calls)
    ensures forall pat: Pattern :: Occurrences(Create(s).calls, pat) == 0
    ensures s.calloc && s.open ==> Create(s).calls[|Create(s).calls| - 1] == Close
  {
    if s.calloc && s.open {
      var body := RefusalCalls(s);
      assert Create(s).calls == body + [Close];
      OpenThenInert(Released, body);
      ApplyConcat(Released, body, [Close]);
      QueuesFromAppConcat(Released, body, [Close]);
      OccurrencesSplit(body, [Close]);
      OccurrencesSingle(Close);
    }
  }

  /** After negotiation and the mapping loop the device is open, the planes
      the loop reached are mapped, and nothing has been queued. */
  lemma NegotiatedMapping(s: SetupReplies)
    requires Negotiates(s)
    ensures Apply(Released, NegotiationCalls(s) + MapPlanes(0, s.setFormat.value.numPlanes, s.queryBuffer.value, s.mmapFails).calls)
      == Kernel(true, PlaneRange(0, MapReached(MapPlanes(0, s.setFormat.value.numPlanes, s.queryBuffer.value, s.mmapFails), s.setFormat.value.numPlanes)), App, false)
    ensures QueuesFromApp(Released, NegotiationCalls(s) + MapPlanes(0, s.setFormat.value.numPlanes, s.queryBuffer.value, s.mmapFails).calls)
  {
    var prefix := NegotiationCalls(s);
    var m := MapPlanes(0, s.setFormat.value.numPlanes, s.queryBuffer.value, s.mmapFails);
    OpenThenInert(Released, prefix);
    ApplyConcat(Released, prefix, m.calls);
    NoQueueCalls(Released, prefix + m.calls);
    MapPlanesEffect(Released.(fdOpen := true), 0, s.setFormat.value.numPlanes, s.queryBuffer.value, s.mmapFails);
  }

  /** Unmapping planes 0..hi-1 and closing, from a state where exactly
      those planes are mapped, releases everything. */
  lemma RollbackThenClose(k: Kernel, hi: nat, lengths: PlaneArray)
    requires hi <= MaxPlanes && k.mapped == PlaneRange(0, hi)
    ensures Apply(k, Rollback(0, hi, lengths) + [Close]) == Released
    ensures QueuesFromApp(k, Rollback(0, hi, lengths) + [Close])
  {
    var undo := Rollback(0, hi, lengths);
    RollbackEffect(k, 0, hi, lengths);
    assert PlaneRange(0, hi) - PlaneRange(0, hi) == {};
    ApplyConcat(k, undo, [Close]);
    ApplyCons(k.(mapped := {}), Close, []);
    assert [Close] + [] == [Close];
    NoQueueCalls(k, undo + [Close]);
  }

  /** The trace of creation when mapping plane k fails. */
  lemma MapFailureTrace(s: SetupReplies, k: nat)
    requires Negotiates(s)
    requires k < s.setFormat.value.numPlanes && k in s.mmapFails
    requires forall p :: 0 <= p < k ==> p !in s.mmapFails
    ensures MapPlanes(0, s.setFormat.value.numPlanes, s.queryBuffer.value, s.mmapFails).MapStopped?
    ensures MapPlanes(0, s.setFormat.value.numPlanes, s.queryBuffer.value, s.mmapFails).at == k
    ensures Create(s) == Created(None,
      NegotiationCalls(s) + MapPlanes(0, s.setFormat.value.numPlanes, s.queryBuffer.value, s.mmapFails).calls
        + Rollback(0, k, s.queryBuffer.value) + [Close])
  {
  }

  /** Kernel state after a failed mapping loop and its rollback. */
  lemma MapFailureState(s: SetupReplies, k: nat)
    requires Negotiates(s)
    requires k < s.setFormat.value.numPlanes && k in s.mmapFails
    requires forall p :: 0 <= p < k ==> p !in s.mmapFails
    ensures Create(s).ctx.None?
    ensures Apply(Released, Create(s).calls) == Released
    ensures QueuesFromApp(Released, Create(s).calls)
  {
    var lengths := s.queryBuffer.value;
    var done := NegotiationCalls(s) + MapPlanes(0, s.setFormat.value.numPlanes, lengths, s.mmapFails).calls;
    var tail := Rollback(0, k, lengths) + [Close];
    MapFailureTrace(s, k);
    assert Create(s).calls == done + tail;
    NegotiatedMapping(s);
    ApplyConcat(Released, done, tail);
    QueuesFromAppConcat(Released, done, tail);
    RollbackThenClose(Apply(Released, done), k, lengths);
  }

  /** Counts of a failed mapping loop and its rollback, for one plane. */
  lemma MapFailureCounts(s: SetupReplies, k: nat, p: nat)
    requires Negotiates(s)
    requires k < s.setFormat.value.numPlanes && k in s.mmapFails
    requires forall q :: 0 <= q < k ==> q !in s.mmapFails
    ensures Occurrences(Create(s).calls, UnmapOf(p)) == (if p < k then 1 else 0)
    ensures Occurrences(Create(s).calls, MapOf(p)) == (if p < k then 1 else 0)
    ensures Occurrences(Create(s).calls, QueueOf(p)) == 0
  {
    var lengths := s.queryBuffer.value;
    var prefix := NegotiationCalls(s);
    var m := MapPlanes(0, s.setFormat.value.numPlanes, lengths, s.mmapFails);
    var undo := Rollback(0, k, lengths);
    MapFailureTrace(s, k);
    OpenThenInert(Released, prefix);
    OccurrencesSplit(prefix, m.calls);
    OccurrencesSplit(prefix + m.calls, undo);
    OccurrencesSplit(prefix + m.calls + undo, [Close]);
    OccurrencesSingle(Close);
    assert Occurrences(m.calls, MapOf(p)) == (if 0 <= p < k then 1 else 0);
    assert Occurrences(undo, UnmapOf(p)) == (if 0 <= p < k then 1 else 0);
    assert Occurrences(m.calls, UnmapOf(p)) == 0 && Occurrences(m.calls, QueueOf(p)) == 0;
    assert Occurrences(undo, MapOf(p)) == 0 && Occurrences(undo, QueueOf(p)) == 0;
  }

  /** A failure to map plane k unmaps exactly planes 0..k-1, each once,
      then closes the device and hands back no context. */
  lemma CreateMapFailure(s: SetupReplies, k: nat)
    requires Negotiates(s)
    requires k < s.setFormat.value.numPlanes && k in s.mmapFails
    requires forall p :: 0 <= p < k ==> p !in s.mmapFails
    ensures Create(s).ctx.None?
    ensures Apply(Released, Create(s).calls) == Released
    ensures QueuesFromApp(Released, Create(s).calls)
    ensures forall p: nat :: Occurrences(Create(s).calls, UnmapOf(p)) == (if p < k then 1 else 0)
    ensures forall p: nat :: Occurrences(Create(s).calls, MapOf(p)) == (if p < k then 1 else 0)
    ensures forall b: nat :: Occurrences(Create(s).calls, QueueOf(b)) == 0
    ensures Create(s).calls[|Create(s).calls| - 1] == Close
  {
    MapFailureState(s, k);
    forall p: nat
      ensures Occurrences(Create(s).calls, UnmapOf(p)) == (if p < k then 1 else 0)
      ensures Occurrences(Create(s).calls, MapOf(p)) == (if p < k then 1 else 0)
      ensures Occurrences(Create(s).calls, QueueOf(p)) == 0
    {
      MapFailureCounts(s, k, p);
    }
  }

  /** The trace of creation when every plane maps but an initial QBUF
      fails. */
  lemma QueueFailureTrace(s: SetupReplies, b: nat)
    requires Negotiates(s)
    requires forall p :: 0 <= p < s.setFormat.value.numPlanes ==> p !in s.mmapFails
    requires b < s.requestBuffers.value && b in s.qbufFails
    ensures MapPlanes(0, s.setFormat.value.numPlanes, s.queryBuffer.value, s.mmapFails).AllMapped?
    ensures QueueBuffers(0, s.requestBuffers.value, BytesUsed(s.setFormat.value), s.qbufFails).QueueStopped?
    ensures Create(s) == Created(None,
      NegotiationCalls(s)
        + MapPlanes(0, s.setFormat.value.numPlanes, s.queryBuffer.value, s.mmapFails).calls
        + QueueBuffers(0, s.requestBuffers.value, BytesUsed(s.setFormat.value), s.qbufFails).calls
        + Rollback(0, s.setFormat.value.numPlanes, s.queryBuffer.value) + [Close])
  {
  }

  /** Kernel state after a failed initial QBUF and its rollback. */
  lemma QueueFailureState(s: SetupReplies, b: nat)
    requires Negotiates(s)
    requires forall p :: 0 <= p < s.setFormat.value.numPlanes ==> p !in s.mmapFails
    requires b < s.requestBuffers.value && b in s.qbufFails
    ensures Create(s).ctx.None?
    ensures Apply(Released, Create(s).calls) == Released
    ensures QueuesFromApp(Released, Create(s).calls)
  {
    var fmt := s.setFormat.value;
    var n := fmt.numPlanes;
    var lengths := s.queryBuffer.value;
    var done := NegotiationCalls(s) + MapPlanes(0, n, lengths, s.mmapFails).calls;
    var q := QueueBuffers(0, s.requestBuffers.value, BytesUsed(fmt), s.qbufFails).calls;
    var tail := Rollback(0, n, lengths) + [Close];
    QueueFailureTrace(s, b);
    assert Create(s).calls == (done + q) + tail;
    NegotiatedMapping(s);
    var k1 := Apply(Released, done);
    ApplyConcat(Released, done, q);
    QueuesFromAppConcat(Released, done, q);
    QueueBuffersEffect(k1, 0, s.requestBuffers.value, BytesUsed(fmt), s.qbufFails);
    ApplyConcat(Released, done + q, tail);
    QueuesFromAppConcat(Released, done + q, tail);
    RollbackThenClose(Apply(Released, done + q), n, lengths);
  }

  /** Counts of a failed initial QBUF and its rollback, for one plane. */
  lemma QueueFailureCounts(s: SetupReplies, b: nat, p: nat)
    requires Negotiates(s)
    requires forall q :: 0 <= q < s.setFormat.value.numPlanes ==> q !in s.mmapFails
    requires b < s.requestBuffers.value && b in s.qbufFails
    ensures Occurrences(Create(s).calls, UnmapOf(p)) == (if p < s.setFormat.value.numPlanes then 1 else 0)
    ensures Occurrences(Create(s).calls, MapOf(p)) == (if p < s.setFormat.value.numPlanes then 1 else 0)
  {
    var fmt := s.setFormat.value;
    var n := fmt.numPlanes;
    var lengths := s.queryBuffer.value;
    var prefix := NegotiationCalls(s);
    var m := MapPlanes(0, n, lengths, s.mmapFails);
    var q := QueueBuffers(0, s.requestBuffers.value, BytesUsed(fmt), s.qbufFails);
    var undo := Rollback(0, n, lengths);
    QueueFailureTrace(s, b);
    OpenThenInert(Released, prefix);
    OccurrencesSplit(prefix, m.calls);
    OccurrencesSplit(prefix + m.calls, q.calls);
    OccurrencesSplit(prefix + m.calls + q.calls, undo);
    OccurrencesSplit(prefix + m.calls + q.calls + undo, [Close]);
    OccurrencesSingle(Close);
    QueueCallsOnly(q.calls, p);
    assert Occurrences(m.calls, MapOf(p)) == (if 0 <= p < n then 1 else 0);
    assert Occurrences(undo, UnmapOf(p)) == (if 0 <= p < n then 1 else 0);
    assert Occurrences(m.calls, UnmapOf(p)) == 0;
    assert Occurrences(undo, MapOf(p)) == 0;
  }

  /** A failure of the initial QBUF unmaps all num_planes planes, each
      once, then closes the device and hands back no context. */
  lemma CreateQueueFailure(s: SetupReplies, b: nat)
    requires Negotiates(s)
    requires forall p :: 0 <= p < s.setFormat.value.numPlanes ==> p !in s.mmapFails
    requires b < s.requestBuffers.value && b in s.qbufFails
    ensures Create(s).ctx.None?
    ensures Apply(Released, Create(s).calls) == Released
    ensures QueuesFromApp(Released, Create(s).calls)
    ensures forall p: nat :: Occurrences(Create(s).calls, UnmapOf(p)) == (if p < s.setFormat.value.numPlanes then 1 else 0)
    ensures forall p: nat :: Occurrences(Create(s).calls, MapOf(p)) == (if p < s.setFormat.value.numPlanes then 1 else 0)
    ensures Create(s).calls[|Create(s).calls| - 1] == Close
  {
    QueueFailureState(s, b);
    forall p: nat
      ensures Occurrences(Create(s).calls, UnmapOf(p)) == (if p < s.setFormat.value.numPlanes then 1 else 0)
      ensures Occurrences(Create(s).calls, MapOf(p)) == (if p < s.setFormat.value.numPlanes then 1 else 0)
    {
      QueueFailureCounts(s, b, p);
    }
  }

  /** The trace of a successful creation. */
  lemma SuccessTrace(s: SetupReplies)
    requires SetupSucceeds(s)
    ensures MapPlanes(0, s.setFormat.value.numPlanes, s.queryBuffer.value, s.mmapFails).AllMapped?
    ensures QueueBuffers(0, s.requestBuffers.value, BytesUsed(s.setFormat.value), s.qbufFails).AllQueued?
    ensures Create(s) == Created(
      Some(Fresh(s.setFormat.value, s.queryBuffer.value, s.requestBuffers.value)),
      NegotiationCalls(s)
        + MapPlanes(0, s.setFormat.value.numPlanes, s.queryBuffer.value, s.mmapFails).calls
        + QueueBuffers(0, s.requestBuffers.value, BytesUsed(s.setFormat.value), s.qbufFails).calls)
  {
  }

  /** Kernel state after a successful creation. */
  lemma SuccessState(s: SetupReplies)
    requires SetupSucceeds(s)
    ensures Create(s).ctx.Some?
    ensures Apply(Released, Create(s).calls) == View(Create(s).ctx.value)
    ensures View(Create(s).ctx.value) ==
      Kernel(true, PlaneRange(0, s.setFormat.value.numPlanes),
             if s.requestBuffers.value > 0 then Device else App, false)
    ensures QueuesFromApp(Released, Create(s).calls)
  {
    var fmt := s.setFormat.value;
    var n := fmt.numPlanes;
    var granted := s.requestBuffers.value;
    var lengths := s.queryBuffer.value;
    var done := NegotiationCalls(s) + MapPlanes(0, n, lengths, s.mmapFails).calls;
    var q := QueueBuffers(0, granted, BytesUsed(fmt), s.qbufFails).calls;
    SuccessTrace(s);
    NegotiatedMapping(s);
    ApplyConcat(Released, done, q);
    QueuesFromAppConcat(Released, done, q);
    QueueBuffersEffect(Apply(Released, done), 0, granted, BytesUsed(fmt), s.qbufFails);
    ValidMappedPlanes(Fresh(fmt, lengths, granted));
  }

  /** Counts of a successful creation, for one plane and one buffer index. */
  lemma SuccessCounts(s: SetupReplies, p: nat, b: nat)
    requires SetupSucceeds(s)
    ensures Occurrences(Create(s).calls, MapOf(p)) == (if p < s.setFormat.value.numPlanes then 1 else 0)
    ensures Occurrences(Create(s).calls, UnmapOf(p)) == 0
    ensures Occurrences(Create(s).calls, QueueOf(b)) == (if b < s.requestBuffers.value then 1 else 0)
  {
    var fmt := s.setFormat.value;
    var n := fmt.numPlanes;
    var granted := s.requestBuffers.value;
    var prefix := NegotiationCalls(s);
    var m := MapPlanes(0, n, s.queryBuffer.value, s.mmapFails);
    var q := QueueBuffers(0, granted, BytesUsed(fmt), s.qbufFails);
    SuccessTrace(s);
    OpenThenInert(Released, prefix);
    OccurrencesSplit(prefix, m.calls);
    OccurrencesSplit(prefix + m.calls, q.calls);
    QueueCallsOnly(q.calls, p);
    QueuedOnce(q.calls, 0, granted, BytesUsed(fmt), b);
    assert Occurrences(m.calls, MapOf(p)) == (if 0 <= p < n then 1 else 0);
    assert Occurrences(m.calls, UnmapOf(p)) == 0 && Occurrences(m.calls, QueueOf(b)) == 0;
  }

  /** Every QBUF of a successful creation succeeds and carries the
      format's sizeimage as bytesused. */
  lemma SuccessQueueCalls(s: SetupReplies)
    requires SetupSucceeds(s)
    ensures forall j :: 0 <= j < |Create(s).calls| && Create(s).calls[j].Queue? ==>
      Create(s).calls[j] == Queue(Create(s).calls[j].index, BytesUsed(s.setFormat.value), true)
  {
    var fmt := s.setFormat.value;
    var prefix := NegotiationCalls(s);
    var m := MapPlanes(0, fmt.numPlanes, s.queryBuffer.value, s.mmapFails);
    var q := QueueBuffers(0, s.requestBuffers.value, BytesUsed(fmt), s.qbufFails);
    var t := prefix + m.calls + q.calls;
    SuccessTrace(s);
    forall j | 0 <= j < |t| && t[j].Queue?
      ensures t[j] == Queue(t[j].index, BytesUsed(fmt), true)
    {
      if j >= |prefix| + |m.calls| {
        assert t[j] == q.calls[j - |prefix| - |m.calls|];
      }
    }
  }

  /** Successful creation: the kernel state the calls leave is the one
      the context records, planes 0..num_planes-1 are each mapped once and
      none unmapped, each granted buffer is queued once with bytesused equal
      to the format's sizeimage, and buffer 0 belongs to the device exactly
      when at least one buffer was granted. */
  lemma CreateSuccess(s: SetupReplies)
    requires SetupSucceeds(s)
    ensures Create(s).ctx.Some?
    ensures Apply(Released, Create(s).calls) == View(Create(s).ctx.value)
    ensures View(Create(s).ctx.value) ==
      Kernel(true, PlaneRange(0, s.setFormat.value.numPlanes),
             if s.requestBuffers.value > 0 then Device else App, false)
    ensures QueuesFromApp(Released, Create(s).calls)
    ensures forall p: nat :: Occurrences(Create(s).calls, MapOf(p)) == (if p < s.setFormat.value.numPlanes then 1 else 0)
    ensures forall p: nat :: Occurrences(Create(s).calls, UnmapOf(p)) == 0
    ensures forall b: nat :: Occurrences(Create(s).calls, QueueOf(b)) == (if b < s.requestBuffers.value then 1 else 0)
    ensures forall j :: 0 <= j < |Create(s).calls| && Create(s).calls[j].Queue? ==>
      Create(s).calls[j] == Queue(Create(s).calls[j].index, BytesUsed(s.setFormat.value), true)
  {
    SuccessState(s);
    SuccessQueueCalls(s);
    forall p: nat
      ensures Occurrences(Create(s).calls, MapOf(p)) == (if p < s.setFormat.value.numPlanes then 1 else 0)
      ensures Occurrences(Create(s).calls, UnmapOf(p)) == 0
      ensures Occurrences(Create(s).calls, QueueOf(p)) == (if p < s.requestBuffers.value then 1 else 0)
    {
      SuccessCounts(s, p, p);
    }
  }

  /** Whatever the device answers, creation either hands out a context
      whose record matches the kernel state its calls produced, or leaves
      nothing open and nothing mapped, having unmapped every plane it
      mapped exactly once. */
  lemma CreateAccounting(s: SetupReplies)
    ensures Create(s).ctx.Some? ==> Valid(Create(s).ctx.value)
    ensures Create(s).ctx.Some? ==> Apply(Released, Create(s).calls) == View(Create(s).ctx.value)
    ensures Create(s).ctx.None? ==> Apply(Released, Create(s).calls) == Released
    ensures QueuesFromApp(Released, Create(s).calls)
    ensures Create(s).ctx.None? ==> forall p: nat ::
      Occurrences(Create(s).calls, UnmapOf(p)) == Occurrences(Create(s).calls, MapOf(p)) <= 1
    ensures Create(s).ctx.Some? ==> forall p: nat ::
      && Occurrences(Create(s).calls, MapOf(p)) == (if p < Create(s).ctx.value.fmt.numPlanes then 1 else 0)
      && Occurrences(Create(s).calls, UnmapOf(p)) == 0
  {
    if !Negotiates(s) {
      CreateRefusedEarly(s);
    } else {
      var m := MapPlanes(0, s.setFormat.value.numPlanes, s.queryBuffer.value, s.mmapFails);
      if m.MapStopped? {
        CreateMapFailure(s, m.at);
      } else if !SetupSucceeds(s) {
        var b :| 0 <= b < s.requestBuffers.value && b in s.qbufFails;
        CreateQueueFailure(s, b);
      } else {
        CreateSuccess(s);
      }
    }
  }
}

=== FILE: camera.dfy ===
/** The capture context of camera_hdmi.c: creation (open, capability
    query, format get/set, buffer request, plane mapping with rollback,
    initial queueing), STREAMON, one capture step (guard, dequeue, decode,
    requeue) and teardown. Every step is a pure function of the context
    and the device's replies, and returns the kernel calls it made. */
module Camera {
  import opened Wrappers
  import opened V4l2
  import opened Syscalls
  import opened Decoder

  /** The context's plane-pointer array, buffers[VIDEO_MAX_PLANES]. */
  type SlotArray = s: seq<Slot> | |s| == MaxPlanes witness [Null, Null, Null, Null, Null, Null, Null, Null]

  /** The state a live context holds. `planeLengths` are the lengths
      QUERYBUF reported, used again when unmapping; `granted` is the buffer
      count REQBUFS returned; `leakedPlaneArrays` counts the per-capture
      plane arrays that are never freed. */
  datatype Context = Context(
    fdOpen: bool,
    fmt: Format,
    planeLengths: PlaneArray,
    slots: SlotArray,
    owner: Owner,
    granted: nat,
    streaming: bool,
    leakedPlaneArrays: nat)

  /** The plane indices that currently hold a live mapping. */
  function MappedPlanes(c: Context): set<nat>
  {
    set p: nat | p < |c.slots| && c.slots[p].Mapped?
  }

  /** The kernel-side state the context believes in. */
  function View(c: Context): Kernel
  {
    Kernel(c.fdOpen, MappedPlanes(c), c.owner, c.streaming)
  }

  /** The shape of every context creation hands out: the device file is
      open, planes 0..num_planes-1 are mapped and the rest of the array is
      still NULL. */
  predicate Valid(c: Context)
  {
    && c.fdOpen
    && forall p :: 0 <= p < MaxPlanes ==> c.slots[p] == (if p < c.fmt.numPlanes then Mapped else Null)
  }

  lemma ValidMappedPlanes(c: Context)
    requires Valid(c)
    ensures MappedPlanes(c) == PlaneRange(0, c.fmt.numPlanes)
  {
    forall p | p in PlaneRange(0, c.fmt.numPlanes)
      ensures p in MappedPlanes(c)
    {
      assert c.slots[p].Mapped?;
    }
  }

  /** What stays fixed once the context exists: the device file, the
      negotiated format, the buffer count, the plane lengths and mappings. */
  predicate Stable(a: Context, b: Context)
  {
    && a.fdOpen == b.fdOpen
    && a.fmt == b.fmt
    && a.planeLengths == b.planeLengths
    && a.slots == b.slots
    && a.granted == b.granted
  }

  // ---------------------------------------------------------------------
  // camera_create
  // ---------------------------------------------------------------------

  /** The device's reply to every call creation can make. `getFormat` is
      the format G_FMT reports; `setFormat` the format S_FMT hands back,
      which the driver may have adjusted; `requestBuffers` the count REQBUFS
      grants; `queryBuffer` the plane lengths QUERYBUF fills in; a plane in
      `mmapFails` fails to map and a buffer index in `qbufFails` fails to
      queue. `calloc` is whether the context allocation succeeds. */
  datatype SetupReplies = SetupReplies(
    calloc: bool,
    open: bool,
    queryCap: bool,
    getFormat: Option<Format>,
    setFormat: Option<Format>,
    requestBuffers: Option<nat>,
    queryBuffer: Option<PlaneArray>,
    mmapFails: set<nat>,
    qbufFails: set<nat>)

  /** Every ioctl up to and including QUERYBUF succeeds. */
  predicate Negotiates(s: SetupReplies)
  {
    && s.calloc && s.open && s.queryCap
    && s.getFormat.Some? && s.setFormat.Some?
    && s.requestBuffers.Some? && s.queryBuffer.Some?
  }

  /** Creation as a whole succeeds: negotiation, every plane mapping and
      every initial QBUF of the granted buffers. */
  predicate SetupSucceeds(s: SetupReplies)
  {
    && Negotiates(s)
    && (forall p :: 0 <= p < s.setFormat.value.numPlanes ==> p !in s.mmapFails)
    && (forall b :: 0 <= b < s.requestBuffers.value ==> b !in s.qbufFails)
  }

  /** The bytesused value every plane of the initial QBUF carries: the
      format's sizeimage of that plane. */
  function BytesUsed(f: Format): (r: seq<nat>)
    ensures |r| == f.numPlanes
    ensures forall j :: 0 <= j < |r| ==> r[j] == f.sizeImage[j]
  {
    f.sizeImage[..f.numPlanes]
  }

  /** The zeroed plane array with the first n entries mapped. */
  function InitialSlots(n: PlaneCount): (r: SlotArray)
    ensures forall p :: 0 <= p < MaxPlanes ==> r[p] == (if p < n then Mapped else Null)
  {
    seq(MaxPlanes, p => if p < n then Mapped else Null)
  }

  datatype MapRun = AllMapped(calls: seq<Syscall>) | MapStopped(at: nat, calls: seq<Syscall>)

  /** The index the mapping loop stopped before. */
  function MapReached(r: MapRun, n: nat): nat
  {
    if r.AllMapped? then n else r.at
  }

  /** The mapping loop from plane i: map each plane, stop at the first
      that fails. */
  function MapPlanes(i: nat, n: PlaneCount, lengths: PlaneArray, fails: set<nat>): (r: MapRun)
    requires i <= n
    ensures r.AllMapped? <==> (forall p :: i <= p < n ==> p !in fails)
    ensures r.MapStopped? ==> i <= r.at < n && r.at in fails && (forall p :: i <= p < r.at ==> p !in fails)
    ensures forall pat: Pattern :: pat.MapOf? ==> Occurrences(r.calls, pat) == (if i <= pat.plane < MapReached(r, n) then 1 else 0)
    ensures forall pat: Pattern :: !pat.MapOf? ==> Occurrences(r.calls, pat) == 0
    ensures forall j :: 0 <= j < |r.calls| ==> r.calls[j].Mmap?
    decreases n - i
  {
    if i == n then AllMapped([])
    else if i in fails then MapStopped(i, [Mmap(i, lengths[i], false)])
    else
      var call := Mmap(i, lengths[i], true);
      match MapPlanes(i + 1, n, lengths, fails)
      case AllMapped(rest) => AllMapped([call] + rest)
      case MapStopped(k, rest) => MapStopped(k, [call] + rest)
  }

  /** Unmap planes i..k-1 unconditionally, in order: the rollback loops of
      creation. */
  function Rollback(i: nat, k: nat, lengths: PlaneArray): (r: seq<Syscall>)
    requires i <= k <= MaxPlanes
    ensures forall pat: Pattern :: pat.UnmapOf? ==> Occurrences(r, pat) == (if i <= pat.plane < k then 1 else 0)
    ensures forall pat: Pattern :: !pat.UnmapOf? ==> Occurrences(r, pat) == 0
    ensures forall j :: 0 <= j < |r| ==> r[j].Munmap?
    decreases k - i
  {
    if i == k then []
    else [Munmap(i, lengths[i])] + Rollback(i + 1, k, lengths)
  }

  datatype QueueRun = AllQueued(calls: seq<Syscall>) | QueueStopped(at: nat, calls: seq<Syscall>)

  /** The initial queueing loop from buffer index i: QBUF each granted
      buffer with the given bytesused, stop at the first that fails. */
  function QueueBuffers(i: nat, count: nat, used: seq<nat>, fails: set<nat>): (r: QueueRun)
    requires i <= count
    ensures r.AllQueued? <==> (forall b :: i <= b < count ==> b !in fails)
    ensures r.QueueStopped? ==> i <= r.at < count && r.at in fails && (forall b :: i <= b < r.at ==> b !in fails)
    ensures r.AllQueued? ==>
      && |r.calls| == count - i
      && forall j :: 0 <= j < |r.calls| ==> r.calls[j] == Queue(i + j, used, true)
    ensures r.QueueStopped? ==>
      && |r.calls| == r.at - i + 1
      && r.calls[|r.calls| - 1] == Queue(r.at, used, false)
      && forall j :: 0 <= j < |r.calls| - 1 ==> r.calls[j] == Queue(i + j, used, true)
    ensures forall j :: 0 <= j < |r.calls| ==> r.calls[j].Queue? && r.calls[j].bytesUsed == used && r.calls[j].index >= i
    decreases count - i
  {
    if i == count then AllQueued([])
    else if i in fails then QueueStopped(i, [Queue(i, used, false)])
    else
      var call := Queue(i, used, true);
      match QueueBuffers(i + 1, count, used, fails)
      case AllQueued(rest) => AllQueued([call] + rest)
      case QueueStopped(k, rest) => QueueStopped(k, [call] + rest)
  }

  /** The outcome of creation: the context, or none, and the calls made. */
  datatype Created = Created(ctx: Option<Context>, calls: seq<Syscall>)

  /** A failed step after open: close the device file and hand back no
      context. */
  function Abort(calls: seq<Syscall>): (r: Created)
    ensures r.ctx.None? && |r.calls| > 0 && r.calls[|r.calls| - 1] == Close
  {
    Created(None, calls + [Close])
  }

  /** The context creation hands out once every step has succeeded. */
  function Fresh(fmt: Format, lengths: PlaneArray, granted: nat): (c: Context)
    ensures Valid(c) && !c.streaming && c.leakedPlaneArrays == 0
    ensures c.owner == Device <==> granted > 0
  {
    Context(
      fdOpen := true,
      fmt := fmt,
      planeLengths := lengths,
      slots := InitialSlots(fmt.numPlanes),
      owner := if granted > 0 then Device else App,
      granted := granted,
      streaming := false,
      leakedPlaneArrays := 0)
  }

  /** The mapping and initial queueing of creation, after QUERYBUF: map every plane of
      buffer 0 (undoing the mappings made so far if one fails), then QBUF
      every granted buffer (undoing every mapping if one fails). */
  function MapAndQueue(s: SetupReplies, prefix: seq<Syscall>): (r: Created)
    requires Negotiates(s)
    ensures r.ctx.Some? <==> SetupSucceeds(s)
    ensures r.ctx.Some? ==> r.ctx.value == Fresh(s.setFormat.value, s.queryBuffer.value, s.requestBuffers.value)
    ensures r.ctx.None? ==> |r.calls| > 0 && r.calls[|r.calls| - 1] == Close
    ensures |prefix| <= |r.calls| && r.calls[..|prefix|] == prefix
    ensures forall j :: |prefix| <= j < |r.calls| ==> !r.calls[j].RequestBuffers?
  {
    var fmt := s.setFormat.value;
    var lengths := s.queryBuffer.value;
    match MapPlanes(0, fmt.numPlanes, lengths, s.mmapFails)
    case MapStopped(k, mapping) =>
      assert (prefix + mapping + Rollback(0, k, lengths) + [Close])[..|prefix|] == prefix;
      Abort(prefix + mapping + Rollback(0, k, lengths))
    case AllMapped(mapping) =>
      match QueueBuffers(0, s.requestBuffers.value, BytesUsed(fmt), s.qbufFails)
      case QueueStopped(_, queueing) =>
        assert (prefix + mapping + queueing + Rollback(0, fmt.numPlanes, lengths) + [Close])[..|prefix|] == prefix;
        Abort(prefix + mapping + queueing + Rollback(0, fmt.numPlanes, lengths))
      case AllQueued(queueing) =>
        assert (prefix + mapping + queueing)[..|prefix|] == prefix;
        Created(Some(Fresh(fmt, lengths, s.requestBuffers.value)), prefix + mapping + queueing)
  }

  /** Creation past QUERYBUF closes the device at most once, as its last
      call, and not at all when it hands out a context. */
  lemma MapAndQueueClosesOnce(s: SetupReplies, prefix: seq<Syscall>)
    requires Negotiates(s) && Close !in prefix
    ensures forall j :: 0 <= j < |MapAndQueue(s, prefix).calls| - 1 ==> MapAndQueue(s, prefix).calls[j] != Close
    ensures MapAndQueue(s, prefix).ctx.Some? ==> Close !in MapAndQueue(s, prefix).calls
  {
    var fmt := s.setFormat.value;
    var lengths := s.queryBuffer.value;
    var m := MapPlanes(0, fmt.numPlanes, lengths, s.mmapFails);
    var q := QueueBuffers(0, s.requestBuffers.value, BytesUsed(fmt), s.qbufFails);
    var body := if m.MapStopped? then prefix + m.calls + Rollback(0, m.at, lengths)
                else if q.QueueStopped? then prefix + m.calls + q.calls + Rollback(0, fmt.numPlanes, lengths)
                else prefix + m.calls + q.calls;
    assert Close !in body;
    if m.MapStopped? || q.QueueStopped? {
      assert MapAndQueue(s, prefix).calls == body + [Close];
    } else {
      assert MapAndQueue(s, prefix).calls == body;
    }
  }

  /** The calls of a successful negotiation, open through QUERYBUF. */
  function NegotiationCalls(s: SetupReplies): (r: seq<Syscall>)
    requires Negotiates(s)
    ensures |r| == 6 && r[0] == Open(true) && r[4] == RequestBuffers(1, true)
    ensures forall j :: 1 <= j < |r| ==> Inert(r[j])
    ensures forall j :: 0 <= j < |r| && r[j].RequestBuffers? ==> r[j].count == 1
    ensures Close !in r
  {
    [ Open(true), QueryCap(true), GetFormat(true), SetFormat(s.getFormat.value, true),
      RequestBuffers(1, true), QueryBuffer(0, s.setFormat.value.numPlanes, true) ]
  }

  /** The calls of a negotiation that fails after open: every call up to
      and including the first failing one, before the device is closed. */
  function RefusalCalls(s: SetupReplies): (r: seq<Syscall>)
    requires s.calloc && s.open && !Negotiates(s)
    ensures |r| > 0 && r[0] == Open(true)
    ensures forall j :: 1 <= j < |r| ==> Inert(r[j])
    ensures forall j :: 0 <= j < |r| && r[j].RequestBuffers? ==> r[j].count == 1
    ensures Close !in r
  {
    if !s.queryCap then [Open(true), QueryCap(false)]
    else if s.getFormat.None? then [Open(true), QueryCap(true), GetFormat(false)]
    else if s.setFormat.None? then
      [Open(true), QueryCap(true), GetFormat(true), SetFormat(s.getFormat.value, false)]
    else if s.requestBuffers.None? then
      [Open(true), QueryCap(true), GetFormat(true), SetFormat(s.getFormat.value, true),
       RequestBuffers(1, false)]
    else
      [Open(true), QueryCap(true), GetFormat(true), SetFormat(s.getFormat.value, true),
       RequestBuffers(1, true), QueryBuffer(0, s.setFormat.value.numPlanes, false)]
  }

  /** camera_create. */
  function Create(s: SetupReplies): (r: Created)
    ensures r.ctx.Some? <==> SetupSucceeds(s)
    ensures r.ctx.Some? ==>
      && Valid(r.ctx.value)
      && !r.ctx.value.streaming
      && r.ctx.value.leakedPlaneArrays == 0
      && r.ctx.value.fmt == s.setFormat.value
      && r.ctx.value.granted == s.requestBuffers.value
      && r.ctx.value.planeLengths == s.queryBuffer.value
    ensures s.calloc && s.open && r.ctx.None? ==> |r.calls| > 0 && r.calls[|r.calls| - 1] == Close
    ensures forall j :: 0 <= j < |r.calls| && r.calls[j].RequestBuffers? ==> r.calls[j].count == 1
    ensures forall j :: 0 <= j < |r.calls| - 1 ==> r.calls[j] != Close
    ensures r.ctx.Some? ==> Close !in r.calls
  {
    if !s.calloc then Created(None, [])
    else if !s.open then Created(None, [Open(false)])
    else if !Negotiates(s) then Abort(RefusalCalls(s))
    else
      MapAndQueueClosesOnce(s, NegotiationCalls(s));
      MapAndQueue(s, NegotiationCalls(s))
  }

  // ---------------------------------------------------------------------
  // camera_start
  // ---------------------------------------------------------------------

  datatype Started = Started(ctx: Option<Context>, ok: bool, calls: seq<Syscall>)

  /** camera_start: issue STREAMON; only its success sets `streaming`. */
  function Start(ctx: Option<Context>, streamOnOk: bool): (r: Started)
    ensures r.ok <==> ctx.Some? && streamOnOk
    ensures r.ctx.Some? <==> ctx.Some?
    ensures r.ok ==> r.ctx.value.streaming && Stable(ctx.value, r.ctx.value) && r.ctx.value.owner == ctx.value.owner
    ensures !r.ok ==> r.ctx == ctx
    ensures ctx.None? ==> r.calls == []
  {
    match ctx
    case None => Started(None, false, [])
    case Some(c) =>
      if streamOnOk then Started(Some(c.(streaming := true)), true, [StreamOn(true)])
      else Started(ctx, false, [StreamOn(false)])
  }

  // ---------------------------------------------------------------------
  // camera_capture_frame
  // ---------------------------------------------------------------------

  /** The device's answer to DQBUF: the buffer's reported bytesused and the
      bytes of plane 0's mapping at that moment, or an error. */
  datatype DequeueReply = Dequeued(bytesUsed: seq<nat>, memory: seq<byte>) | DequeueFailed

  datatype Captured = Captured(ctx: Option<Context>, ok: bool, frame: Option<Frame>, calls: seq<Syscall>)

  /** The guard of camera_capture_frame: a context that is streaming. */
  predicate CanCapture(ctx: Option<Context>)
  {
    ctx.Some? && ctx.value.streaming
  }

  /** camera_capture_frame: guard, DQBUF of buffer 0, decode, re-QBUF. The
      early returns after a successful DQBUF do not re-queue the buffer,
      and a failed re-QBUF still reports a captured frame. */
  function CaptureFrame(ctx: Option<Context>, reply: DequeueReply, requeueOk: bool): (r: Captured)
    ensures !CanCapture(ctx) ==> !r.ok && r.ctx == ctx && r.calls == []
    ensures r.ok <==> r.frame.Some?
    ensures r.ok <==>
      && CanCapture(ctx)
      && reply.Dequeued?
      && ctx.value.fmt.pixelFormat in SupportedFormats
      && ctx.value.slots[0] != Null
    ensures r.frame.Some? ==>
      && r.frame.value.source == PlaneView(ctx.value.fmt.width, ctx.value.fmt.height, reply.memory)
      && Some(r.frame.value.code) == ConversionFor(ctx.value.fmt.pixelFormat)
    ensures r.ctx.Some? <==> ctx.Some?
    ensures r.ctx.Some? ==>
      && Stable(ctx.value, r.ctx.value)
      && r.ctx.value.streaming == ctx.value.streaming
      && r.ctx.value.leakedPlaneArrays == ctx.value.leakedPlaneArrays + (if r.ok then 1 else 0)
    ensures CanCapture(ctx) && reply.DequeueFailed? ==> r.ctx == ctx
    ensures CanCapture(ctx) && reply.Dequeued? ==>
      r.ctx.value.owner == (if r.ok && requeueOk then Device else App)
    ensures (exists j :: 0 <= j < |r.calls| && r.calls[j].Dequeue?) <==> CanCapture(ctx)
    ensures (exists j :: 0 <= j < |r.calls| && r.calls[j].Queue?) <==> r.ok
    ensures r.ok ==> r.calls[|r.calls| - 1] == Queue(0, reply.bytesUsed, requeueOk)
  {
    if !CanCapture(ctx) then Captured(ctx, false, None, [])
    else
      var c := ctx.value;
      match reply
      case DequeueFailed =>
        assert [Dequeue(0, false)][0].Dequeue?;
        Captured(ctx, false, None, [Dequeue(0, false)])
      case Dequeued(used, memory) =>
        match Decode(c.fmt, c.slots[0], memory)
        case Failure(_) =>
          assert [Dequeue(0, true)][0].Dequeue?;
          Captured(Some(c.(owner := App)), false, None, [Dequeue(0, true)])
        case Success(frame) =>
          var next := c.(owner := if requeueOk then Device else App,
                         leakedPlaneArrays := c.leakedPlaneArrays + 1);
          assert [Dequeue(0, true), Queue(0, used, requeueOk)][0].Dequeue?;
          assert [Dequeue(0, true), Queue(0, used, requeueOk)][1].Queue?;
          Captured(Some(next), true, Some(frame), [Dequeue(0, true), Queue(0, used, requeueOk)])
  }

  // ---------------------------------------------------------------------
  // camera_destroy
  // ---------------------------------------------------------------------

  /** The teardown loop from plane i: unmap every plane below n whose
      pointer is not MAP_FAILED. */
  function Release(i: nat, n: PlaneCount, slots: SlotArray, lengths: PlaneArray): (r: seq<Syscall>)
    requires i <= n
    ensures forall pat: Pattern :: pat.UnmapOf? ==>
      Occurrences(r, pat) == (if i <= pat.plane < n && slots[pat.plane] != MapFailed then 1 else 0)
    ensures forall pat: Pattern :: !pat.UnmapOf? ==> Occurrences(r, pat) == 0
    ensures forall j :: 0 <= j < |r| ==> r[j].Munmap?
    decreases n - i
  {
    if i == n then []
    else if slots[i] != MapFailed then [Munmap(i, lengths[i])] + Release(i + 1, n, slots, lengths)
    else Release(i + 1, n, slots, lengths)
  }

  /** camera_destroy: STREAMOFF if streaming, unmap, close. */
  function Destroy(ctx: Option<Context>): (r: seq<Syscall>)
    ensures ctx.None? ==> r == []
    ensures ctx.Some? ==> |r| > 0 && r[|r| - 1] == Close
    ensures ctx.Some? ==> (StreamOff in r <==> ctx.value.streaming)
    ensures ctx.Some? && ctx.value.streaming ==> r[0] == StreamOff
    ensures ctx.Some? ==> forall p: nat ::
      Occurrences(r, UnmapOf(p)) == (if p < ctx.value.fmt.numPlanes && ctx.value.slots[p] != MapFailed then 1 else 0)
    ensures forall p: nat :: Occurrences(r, MapOf(p)) == 0
    ensures forall j :: 0 <= j < |r| - 1 ==> r[j] != Close
  {
    match ctx
    case None => []
    case Some(c) =>
      var stop := if c.streaming then [StreamOff] else [];
      var unmaps := Release(0, c.fmt.numPlanes, c.slots, c.planeLengths);
      OccurrencesSplit(stop, unmaps);
      OccurrencesSplit(stop + unmaps, [Close]);
      stop + unmaps + [Close]
  }
}

=== FILE: decoder.dfy ===
/** The frame decoder of camera_capture_frame: dispatch on the pixel-format
    tag, a single-channel view over plane 0, and the colour conversion,
    which is left uninterpreted. */
module Decoder {
  import opened Wrappers
  import opened V4l2

  /** The OpenCV conversion codes the dispatch can select. */
  datatype ColorCode = YuvToBgrI420 | YuvToBgrNV21 | YuvToBgrNV12

  /** A single-channel 8-bit matrix header over raw memory: `rows` by
      `cols` elements, reading from `data`. */
  datatype Mat = Mat(rows: nat, cols: nat, data: seq<byte>)

  /** The image produced by the colour conversion of `source` with `code`.
      It is a pure function of its two arguments and nothing else. */
  datatype Frame = Converted(source: Mat, code: ColorCode)

  datatype DecodeError = UnsupportedEncoding | InvalidBuffer

  /** The closed set of tags the dispatch accepts. */
  const SupportedFormats: set<nat> := {PixNV24, PixNV21, PixNV12}

  /** The conversion chosen for a pixel-format tag. NV24 deliberately
      keeps the I420 conversion the dispatch uses for it. */
  function ConversionFor(pixelFormat: nat): (r: Option<ColorCode>)
    ensures r.Some? <==> pixelFormat in SupportedFormats
    ensures r == Some(YuvToBgrNV12) ==> pixelFormat == PixNV12
    ensures r == Some(YuvToBgrNV21) ==> pixelFormat == PixNV21
    ensures r == Some(YuvToBgrI420) ==> pixelFormat == PixNV24
  {
    if pixelFormat == PixNV24 then Some(YuvToBgrI420)
    else if pixelFormat == PixNV21 then Some(YuvToBgrNV21)
    else if pixelFormat == PixNV12 then Some(YuvToBgrNV12)
    else None
  }

  /** The number of bytes a `height + height/2` by `width` single-channel
      view reads: full-resolution luma followed by 4:2:0 chroma. */
  function ViewBytes(width: nat, height: nat): nat
  {
    width * (height + height / 2)
  }

  /** The view stays inside the memory it is laid over. */
  predicate Covers(m: Mat)
  {
    m.rows * m.cols <= |m.data|
  }

  /** The view every supported tag lays over plane 0. */
  function PlaneView(width: nat, height: nat, memory: seq<byte>): (m: Mat)
    ensures m.rows * m.cols == ViewBytes(width, height)
    ensures m.data == memory
    ensures Covers(m) <==> ViewBytes(width, height) <= |memory|
  {
    Mat(height + height / 2, width, memory)
  }

  /** Decode the dequeued buffer: the switch on the tag comes first, the
      NULL check of plane 0's pointer only inside a supported case. */
  function Decode(fmt: Format, plane0: Slot, memory: seq<byte>): (r: Result<Frame, DecodeError>)
    ensures r == Failure(UnsupportedEncoding) <==> fmt.pixelFormat !in SupportedFormats
    ensures r == Failure(InvalidBuffer) <==> fmt.pixelFormat in SupportedFormats && plane0 == Null
    ensures r.Success? ==>
      && r.value.source.rows == fmt.height + fmt.height / 2
      && r.value.source.cols == fmt.width
      && r.value.source.data == memory
      && Some(r.value.code) == ConversionFor(fmt.pixelFormat)
  {
    match ConversionFor(fmt.pixelFormat)
    case None => Failure(UnsupportedEncoding)
    case Some(code) =>
      if plane0 == Null then Failure(InvalidBuffer)
      else Success(Converted(PlaneView(fmt.width, fmt.height, memory), code))
  }

  /** The conversion depends only on the bytes, the geometry and the tag:
      two decodes that agree on those agree on the frame. */
  lemma DecodeDeterministic(f1: Format, f2: Format, s1: Slot, s2: Slot, m: seq<byte>)
    requires f1.width == f2.width && f1.height == f2.height && f1.pixelFormat == f2.pixelFormat
    requires (s1 == Null) == (s2 == Null)
    ensures Decode(f1, s1, m) == Decode(f2, s2, m)
  {
  }

  /** When plane 0 holds exactly the luma of a two-plane layout, width
      times height bytes with the chroma in plane 1, the view laid over
      plane 0 reads past its end for every height of two rows or more. */
  lemma TwoPlaneViewOverrunsPlaneZero(width: nat, height: nat, memory: seq<byte>)
    requires width > 0 && height >= 2 && |memory| == width * height
    ensures !Covers(PlaneView(width, height, memory))
  {
    assert width * (height + height / 2) == width * height + width * (height / 2);
    assert width * (height / 2) >= width;
  }
}

=== FILE: lifecycle.dfy ===
/** The life of one capture context: creation, any interleaving of
    camera_start and camera_capture_frame, then camera_destroy. The lemmas
    here follow the kernel-side state through each step and over a whole
    lifetime. */
module Lifecycle {
  import opened Wrappers
  import opened V4l2
  import opened Syscalls
  import opened Decoder
  import opened Camera
  import opened Accounting

  /** STREAMON's effect is exactly the context's new `streaming` flag. */
  lemma StartTracks(c: Context, streamOnOk: bool)
    ensures Apply(View(c), Start(Some(c), streamOnOk).calls) == View(Start(Some(c), streamOnOk).ctx.value)
    ensures QueuesFromApp(View(c), Start(Some(c), streamOnOk).calls)
    ensures forall pat: Pattern :: Occurrences(Start(Some(c), streamOnOk).calls, pat) == 0
  {
    var t := Start(Some(c), streamOnOk).calls;
    ApplyCons(View(c), t[0], []);
    assert [t[0]] + [] == t;
  }

  /** One capture step: the buffer-0 ownership the context records after
      the step is the one the kernel holds after the step's DQBUF and
      re-QBUF, the buffer is only re-queued after it was dequeued, and no
      plane is mapped or unmapped. */
  lemma CaptureTracks(c: Context, reply: DequeueReply, requeueOk: bool)
    ensures Apply(View(c), CaptureFrame(Some(c), reply, requeueOk).calls)
      == View(CaptureFrame(Some(c), reply, requeueOk).ctx.value)
    ensures QueuesFromApp(View(c), CaptureFrame(Some(c), reply, requeueOk).calls)
    ensures forall pat: Pattern :: pat.MapOf? || pat.UnmapOf? ==>
      Occurrences(CaptureFrame(Some(c), reply, requeueOk).calls, pat) == 0
  {
    var r := CaptureFrame(Some(c), reply, requeueOk);
    if |r.calls| == 1 {
      ApplyCons(View(c), r.calls[0], []);
      assert [r.calls[0]] + [] == r.calls;
    } else if |r.calls| == 2 {
      var k1 := Effect(View(c), r.calls[0]);
      ApplyCons(View(c), r.calls[0], [r.calls[1]]);
      ApplyCons(k1, r.calls[1], []);
      assert [r.calls[0]] + [r.calls[1]] == r.calls;
      assert [r.calls[1]] + [] == [r.calls[1]];
      OccurrencesSplit([r.calls[0]], [r.calls[1]]);
    }
  }

  /** On a context creation handed out, the teardown loop unmaps exactly
      the planes the context has mapped. */
  lemma ReleasesMapped(c: Context)
    requires Valid(c)
    ensures ReleasedPlanes(0, c.fmt.numPlanes, c.slots) == MappedPlanes(c)
  {
    ValidMappedPlanes(c);
  }

  /** The state the teardown loop starts from: STREAMOFF, when streaming,
      only stops the stream and hands buffer 0 back. */
  lemma StopEffect(c: Context)
    ensures Apply(View(c), if c.streaming then [StreamOff] else [])
      == if c.streaming then View(c).(owner := App, streaming := false) else View(c)
  {
    if c.streaming {
      ApplyCons(View(c), StreamOff, []);
      assert [StreamOff] + [] == [StreamOff];
    }
  }

  /** Teardown of a context creation handed out releases everything: the
      device file is closed, no plane is left mapped, streaming has stopped
      and buffer 0 is back with the application. */
  lemma DestroyReleases(c: Context)
    requires Valid(c)
    ensures Apply(View(c), Destroy(Some(c))) == Released
    ensures QueuesFromApp(View(c), Destroy(Some(c)))
  {
    var stop := if c.streaming then [StreamOff] else [];
    var unmaps := Release(0, c.fmt.numPlanes, c.slots, c.planeLengths);
    var k1 := if c.streaming then View(c).(owner := App, streaming := false) else View(c);
    StopEffect(c);
    ApplyConcat(View(c), stop, unmaps);
    ReleaseEffect(k1, 0, c.fmt.numPlanes, c.slots, c.planeLengths);
    ReleasesMapped(c);
    var k2 := k1.(mapped := {});
    assert Apply(View(c), stop + unmaps) == k2;
    ApplyConcat(View(c), stop + unmaps, [Close]);
    ApplyCons(k2, Close, []);
    assert [Close] + [] == [Close];
    NoQueueCalls(View(c), stop + unmaps + [Close]);
  }

  // ---------------------------------------------------------------------
  // Sessions
  // ---------------------------------------------------------------------

  /** What the caller does with a live context, together with the device's
      reply to the call it makes. */
  datatype Event =
    | StartEvent(streamOnOk: bool)
    | CaptureEvent(reply: DequeueReply, requeueOk: bool)

  datatype Session = Session(ctx: Context, frames: seq<Frame>, calls: seq<Syscall>)

  /** One event applied to a live context. */
  function Step(c: Context, e: Event): (r: Session)
    ensures Stable(c, r.ctx)
    ensures |r.frames| <= 1
  {
    match e
    case StartEvent(ok) =>
      var st := Start(Some(c), ok);
      Session(st.ctx.value, [], st.calls)
    case CaptureEvent(reply, requeueOk) =>
      var cap := CaptureFrame(Some(c), reply, requeueOk);
      Session(cap.ctx.value, if cap.frame.Some? then [cap.frame.value] else [], cap.calls)
  }

  /** A sequence of events applied in order. The negotiated format, the
      buffer count and the plane mappings never change while it runs, and
      it yields at most one frame per event. */
  function Run(c: Context, events: seq<Event>): (r: Session)
    ensures Stable(c, r.ctx)
    ensures |r.frames| <= |events|
    decreases |events|
  {
    if |events| == 0 then Session(c, [], [])
    else
      var first := Step(c, events[0]);
      var rest := Run(first.ctx, events[1..]);
      Session(rest.ctx, first.frames + rest.frames, first.calls + rest.calls)
  }

  lemma StepTracks(c: Context, e: Event)
    ensures Apply(View(c), Step(c, e).calls) == View(Step(c, e).ctx)
    ensures QueuesFromApp(View(c), Step(c, e).calls)
    ensures forall pat: Pattern :: pat.MapOf? || pat.UnmapOf? ==> Occurrences(Step(c, e).calls, pat) == 0
  {
    match e
    case StartEvent(ok) => StartTracks(c, ok);
    case CaptureEvent(reply, requeueOk) => CaptureTracks(c, reply, requeueOk);
  }

  /** Over any session the context's record keeps matching the kernel
      state, buffer 0 is never queued while the device owns it, and no
      plane is mapped or unmapped. */
  lemma {:induction false} RunTracks(c: Context, events: seq<Event>)
    ensures Apply(View(c), Run(c, events).calls) == View(Run(c, events).ctx)
    ensures QueuesFromApp(View(c), Run(c, events).calls)
    ensures forall p: nat ::
      Occurrences(Run(c, events).calls, MapOf(p)) == 0 && Occurrences(Run(c, events).calls, UnmapOf(p)) == 0
    decreases |events|
  {
    if |events| > 0 {
      var first := Step(c, events[0]);
      var rest := Run(first.ctx, events[1..]);
      StepTracks(c, events[0]);
      RunTracks(first.ctx, events[1..]);
      ApplyConcat(View(c), first.calls, rest.calls);
      QueuesFromAppConcat(View(c), first.calls, rest.calls);
      OccurrencesSplit(first.calls, rest.calls);
      forall p: nat
        ensures Occurrences(Run(c, events).calls, MapOf(p)) == 0
        ensures Occurrences(Run(c, events).calls, UnmapOf(p)) == 0
      {
        assert Occurrences(first.calls, MapOf(p)) == 0;
        assert Occurrences(first.calls, UnmapOf(p)) == 0;
      }
    }
  }

  /** Every call of one lifetime: creation, then (if a context was handed
      out) the session and teardown. */
  function Lifetime(s: SetupReplies, events: seq<Event>): seq<Syscall>
  {
    var created := Create(s);
    match created.ctx
    case None => created.calls
    case Some(c) =>
      var session := Run(c, events);
      created.calls + session.calls + Destroy(Some(session.ctx))
  }

  /** Whatever the device answers and whatever the caller does between
      creation and teardown, a lifetime ends with the device file closed
      and nothing mapped; every plane is unmapped exactly as often as it was
      mapped, and at most once; buffer 0 is never queued twice without a
      dequeue between. */
  lemma LifetimeReleasesEverything(s: SetupReplies, events: seq<Event>)
    ensures Apply(Released, Lifetime(s, events)) == Released
    ensures forall p: nat ::
      Occurrences(Lifetime(s, events), UnmapOf(p)) == Occurrences(Lifetime(s, events), MapOf(p)) <= 1
    ensures QueuesFromApp(Released, Lifetime(s, events))
  {
    var created := Create(s);
    CreateAccounting(s);
    if created.ctx.Some? {
      var c := created.ctx.value;
      var session := Run(c, events);
      var teardown := Destroy(Some(session.ctx));
      RunTracks(c, events);
      assert Valid(session.ctx);
      DestroyReleases(session.ctx);
      ApplyConcat(Released, created.calls, session.calls);
      ApplyConcat(Released, created.calls + session.calls, teardown);
      QueuesFromAppConcat(Released, created.calls, session.calls);
      QueuesFromAppConcat(Released, created.calls + session.calls, teardown);
      OccurrencesSplit(created.calls, session.calls);
      OccurrencesSplit(created.calls + session.calls, teardown);
      forall p: nat
        ensures Occurrences(Lifetime(s, events), UnmapOf(p)) == Occurrences(Lifetime(s, events), MapOf(p)) <= 1
      {
        assert Occurrences(created.calls, MapOf(p)) == (if p < c.fmt.numPlanes then 1 else 0);
        assert Occurrences(session.calls, MapOf(p)) == 0;
        assert Occurrences(session.calls, UnmapOf(p)) == 0;
        assert Occurrences(teardown, UnmapOf(p)) == (if p < c.fmt.numPlanes then 1 else 0);
      }
    }
  }

  // ---------------------------------------------------------------------
  // Ownership and source quirks
  // ---------------------------------------------------------------------

  /** A device that honours the V4L2 queue completes a DQBUF only while a
      buffer is queued to it: along the session, a capture's reply is
      `Dequeued` only while the context records buffer 0 as the device's.
      The device file is opened blocking, so the real DQBUF of an
      application-owned buffer waits for ever; the model represents that
      wait as the `DequeueFailed` reply. */
  predicate HonestDevice(c: Context, events: seq<Event>)
    decreases |events|
  {
    |events| == 0 ||
    (&& (events[0].CaptureEvent? && events[0].reply.Dequeued? ==> c.owner == Device)
     && HonestDevice(Step(c, events[0]).ctx, events[1..]))
  }

  /** After an early return has left buffer 0 with the application,
      nothing in the context re-queues it: against an honest device no
      later event yields a frame and the buffer stays with the
      application. */
  lemma {:induction false} EarlyReturnStarves(c: Context, events: seq<Event>)
    requires c.owner == App
    requires HonestDevice(c, events)
    ensures Run(c, events).frames == []
    ensures Run(c, events).ctx.owner == App
    decreases |events|
  {
    if |events| > 0 {
      var first := Step(c, events[0]);
      assert first.frames == [] && first.ctx.owner == App;
      EarlyReturnStarves(first.ctx, events[1..]);
    }
  }

  /** One step issues DQBUF of buffer 0 only while the device owns it
      exactly when it is not a capture on a streaming context, or the
      device does own the buffer. */
  lemma StepDequeues(c: Context, e: Event)
    ensures DequeuesFromDevice(View(c), Step(c, e).calls)
      <==> (e.CaptureEvent? && c.streaming ==> c.owner == Device)
  {
    var t := Step(c, e).calls;
    if |t| == 1 {
      assert t[1..] == [];
    } else if |t| == 2 {
      var k1 := Effect(View(c), t[0]);
      assert t[1..] == [t[1]];
      assert [t[1]][1..] == [];
      assert DequeuesFromDevice(k1, [t[1]]);
    }
  }

  /** The capture steps of a session that would DQBUF buffer 0 all find
      it with the device. */
  predicate DeviceOwnsAtEveryDequeue(c: Context, events: seq<Event>)
    decreases |events|
  {
    |events| == 0 ||
    (&& (events[0].CaptureEvent? && c.streaming ==> c.owner == Device)
     && DeviceOwnsAtEveryDequeue(Step(c, events[0]).ctx, events[1..]))
  }

  /** The dequeue half of the buffer-ownership protocol holds for a session
      exactly when every capture on a streaming context finds buffer 0 with
      the device. */
  lemma {:induction false} RunDequeues(c: Context, events: seq<Event>)
    ensures DequeuesFromDevice(View(c), Run(c, events).calls) <==> DeviceOwnsAtEveryDequeue(c, events)
    decreases |events|
  {
    if |events| > 0 {
      var first := Step(c, events[0]);
      var rest := Run(first.ctx, events[1..]);
      StepDequeues(c, events[0]);
      StepTracks(c, events[0]);
      RunDequeues(first.ctx, events[1..]);
      DequeuesFromDeviceConcat(View(c), first.calls, rest.calls);
    }
  }

  /** A capture that dequeues buffer 0 and then takes an early return, or
      whose re-QBUF fails, leaves the buffer with the application; the next
      capture issues DQBUF of that application-owned buffer all the same. */
  lemma EarlyReturnBreaksDequeue(c: Context, reply: DequeueReply, requeueOk: bool, later: seq<Event>)
    requires c.streaming && reply.Dequeued?
    requires !(CaptureFrame(Some(c), reply, requeueOk).ok && requeueOk)
    requires |later| > 0 && later[0].CaptureEvent?
    ensures !DeviceOwnsAtEveryDequeue(c, [CaptureEvent(reply, requeueOk)] + later)
    ensures !DequeuesFromDevice(View(c), Run(c, [CaptureEvent(reply, requeueOk)] + later).calls)
  {
    var events := [CaptureEvent(reply, requeueOk)] + later;
    assert events[0] == CaptureEvent(reply, requeueOk);
    assert events[1..] == later;
    var first := Step(c, events[0]);
    assert first.ctx.owner == App && first.ctx.streaming;
    RunDequeues(c, events);
  }

  /** When the DQBUF reply carries plane 0's whole mapping, as long as
      QUERYBUF reported, the view of a decoded frame stays in bounds exactly
      when plane 0 is at least `width * (height + height/2)` bytes long. */
  lemma CaptureViewFits(c: Context, reply: DequeueReply, requeueOk: bool)
    requires reply.Dequeued? && |reply.memory| == c.planeLengths[0]
    ensures CaptureFrame(Some(c), reply, requeueOk).frame.Some? ==>
      (Covers(CaptureFrame(Some(c), reply, requeueOk).frame.value.source) <==>
       ViewBytes(c.fmt.width, c.fmt.height) <= c.planeLengths[0])
  {
  }

  /** Creation does not reject a format reporting zero planes: it maps
      nothing and still hands out a context. */
  lemma ZeroPlanesAccepted(s: SetupReplies)
    requires Negotiates(s) && s.setFormat.value.numPlanes == 0
    requires forall b :: 0 <= b < s.requestBuffers.value ==> b !in s.qbufFails
    ensures Create(s).ctx.Some?
    ensures Create(s).ctx.value.slots[0] == Null
    ensures forall p: nat :: Occurrences(Create(s).calls, MapOf(p)) == 0
  {
    CreateSuccess(s);
  }

  /** Such a context never yields a frame: a supported tag reaches the
      NULL check on plane 0, an unsupported one the default case, and in
      both the dequeued buffer is left with the application. */
  lemma ZeroPlanesNeverCapture(c: Context, reply: DequeueReply, requeueOk: bool)
    requires Valid(c) && c.fmt.numPlanes == 0 && c.streaming
    requires reply.Dequeued?
    ensures !CaptureFrame(Some(c), reply, requeueOk).ok
    ensures CaptureFrame(Some(c), reply, requeueOk).ctx.value.owner == App
  {
    assert c.slots[0] == Null;
  }
}

=== FILE: syscalls.dfy ===
/** The calls the camera context makes into the kernel, recorded with
    their outcomes, and the kernel-side resource state those calls leave
    behind. Replaying a trace over that state is how the model accounts
    for file descriptors, mappings, buffer ownership and streaming. */
module Syscalls {
  import opened V4l2

  /** One call into the kernel and whether it succeeded. */
  datatype Syscall =
    | Open(ok: bool)
    | QueryCap(ok: bool)
    | GetFormat(ok: bool)
    | SetFormat(submitted: Format, ok: bool)
    | RequestBuffers(count: nat, ok: bool)
    | QueryBuffer(index: nat, planes: nat, ok: bool)
    | Mmap(plane: nat, length: nat, ok: bool)
    | Munmap(plane: nat, length: nat)
    | Queue(index: nat, bytesUsed: seq<nat>, ok: bool)
    | Dequeue(index: nat, ok: bool)
    | StreamOn(ok: bool)
    | StreamOff
    | Close

  /** What the kernel holds on the process's behalf: whether the device
      file is open, which planes of buffer 0 are mapped, who owns buffer 0
      and whether the queue is streaming. */
  datatype Kernel = Kernel(fdOpen: bool, mapped: set<nat>, owner: Owner, streaming: bool)

  /** Nothing held: the state before the first call and the state every
      complete lifetime must return to. */
  const Released: Kernel := Kernel(false, {}, App, false)

  /** The effect of one call. A mapping outlives close(); closing the
      device file releases the queue, which stops streaming and hands every
      buffer back; STREAMOFF also hands every buffer back. */
  function Effect(k: Kernel, c: Syscall): Kernel
  {
    match c
    case Open(ok) => if ok then k.(fdOpen := true) else k
    case Close => Kernel(false, k.mapped, App, false)
    case Mmap(p, _, ok) => if ok then k.(mapped := k.mapped + {p}) else k
    case Munmap(p, _) => k.(mapped := k.mapped - {p})
    case Queue(i, _, ok) => if ok && i == 0 then k.(owner := Device) else k
    case Dequeue(i, ok) => if ok && i == 0 then k.(owner := App) else k
    case StreamOn(ok) => if ok then k.(streaming := true) else k
    case StreamOff => k.(owner := App, streaming := false)
    case _ => k
  }

  /** Replay a trace from left to right. */
  function Apply(k: Kernel, t: seq<Syscall>): Kernel
    decreases |t|
  {
    if |t| == 0 then k else Apply(Effect(k, t[0]), t[1..])
  }

  lemma {:induction false} ApplyConcat(k: Kernel, a: seq<Syscall>, b: seq<Syscall>)
    ensures Apply(k, a + b) == Apply(Apply(k, a), b)
    decreases |a|
  {
    if |a| == 0 {
      assert a + b == b;
    } else {
      assert (a + b)[0] == a[0];
      assert (a + b)[1..] == a[1..] + b;
      ApplyConcat(Effect(k, a[0]), a[1..], b);
    }
  }

  /** Set of plane indices lo..hi-1. */
  function PlaneRange(lo: nat, hi: nat): (r: set<nat>)
    ensures forall p :: p in r <==> lo <= p < hi
    decreases hi - lo
  {
    if lo >= hi then {} else {lo} + PlaneRange(lo + 1, hi)
  }

  /** The kinds of call whose occurrences are counted per plane or buffer. */
  datatype Pattern = MapOf(plane: nat) | UnmapOf(plane: nat) | QueueOf(index: nat)

  /** A successful mmap of the plane, any munmap of the plane, or a
      successful QBUF of the buffer index. */
  predicate Matches(c: Syscall, pat: Pattern)
  {
    match pat
    case MapOf(p) => c.Mmap? && c.ok && c.plane == p
    case UnmapOf(p) => c.Munmap? && c.plane == p
    case QueueOf(i) => c.Queue? && c.ok && c.index == i
  }

  /** How many calls of the trace match the pattern. */
  function Occurrences(t: seq<Syscall>, pat: Pattern): nat
    decreases |t|
  {
    if |t| == 0 then 0
    else (if Matches(t[0], pat) then 1 else 0) + Occurrences(t[1..], pat)
  }

  lemma {:induction false} OccurrencesConcat(a: seq<Syscall>, b: seq<Syscall>, pat: Pattern)
    ensures Occurrences(a + b, pat) == Occurrences(a, pat) + Occurrences(b, pat)
    decreases |a|
  {
    if |a| == 0 {
      assert a + b == b;
    } else {
      assert (a + b)[0] == a[0];
      assert (a + b)[1..] == a[1..] + b;
      OccurrencesConcat(a[1..], b, pat);
    }
  }

  /** Every QBUF of buffer 0 in the trace is issued while the application
      owns it: the buffer is never queued twice without a dequeue between. */
  predicate QueuesFromApp(k: Kernel, t: seq<Syscall>)
    decreases |t|
  {
    |t| == 0 ||
    ((t[0].Queue? && t[0].index == 0 ==> k.owner == App) && QueuesFromApp(Effect(k, t[0]), t[1..]))
  }

  lemma {:induction false} QueuesFromAppConcat(k: Kernel, a: seq<Syscall>, b: seq<Syscall>)
    ensures QueuesFromApp(k, a + b) <==> QueuesFromApp(k, a) && QueuesFromApp(Apply(k, a), b)
    decreases |a|
  {
    if |a| == 0 {
      assert a + b == b;
    } else {
      assert (a + b)[0] == a[0];
      assert (a + b)[1..] == a[1..] + b;
      QueuesFromAppConcat(Effect(k, a[0]), a[1..], b);
    }
  }

  /** Every DQBUF of buffer 0 in the trace is issued while the device owns
      it: the application only waits for a buffer it has queued. */
  predicate DequeuesFromDevice(k: Kernel, t: seq<Syscall>)
    decreases |t|
  {
    |t| == 0 ||
    ((t[0].Dequeue? && t[0].index == 0 ==> k.owner == Device) && DequeuesFromDevice(Effect(k, t[0]), t[1..]))
  }

  lemma {:induction false} DequeuesFromDeviceConcat(k: Kernel, a: seq<Syscall>, b: seq<Syscall>)
    ensures DequeuesFromDevice(k, a + b) <==> DequeuesFromDevice(k, a) && DequeuesFromDevice(Apply(k, a), b)
    decreases |a|
  {
    if |a| == 0 {
      assert a + b == b;
    } else {
      assert (a + b)[0] == a[0];
      assert (a + b)[1..] == a[1..] + b;
      DequeuesFromDeviceConcat(Effect(k, a[0]), a[1..], b);
    }
  }

  /** A call that changes nothing the kernel holds for the process. */
  predicate Inert(c: Syscall)
  {
    c.QueryCap? || c.GetFormat? || c.SetFormat? || c.RequestBuffers? || c.QueryBuffer?
  }

  lemma {:induction false} ApplyInert(k: Kernel, t: seq<Syscall>)
    requires forall j :: 0 <= j < |t| ==> Inert(t[j])
    ensures Apply(k, t) == k
    ensures QueuesFromApp(k, t)
    ensures forall pat :: Occurrences(t, pat) == 0
    decreases |t|
  {
    if |t| > 0 {
      ApplyInert(k, t[1..]);
    }
  }

  lemma OccurrencesSplit(a: seq<Syscall>, b: seq<Syscall>)
    ensures forall pat: Pattern :: Occurrences(a + b, pat) == Occurrences(a, pat) + Occurrences(b, pat)
  {
    forall pat: Pattern
      ensures Occurrences(a + b, pat) == Occurrences(a, pat) + Occurrences(b, pat)
    {
      OccurrencesConcat(a, b, pat);
    }
  }

  lemma OccurrencesSingle(c: Syscall)
    ensures forall pat: Pattern :: Occurrences([c], pat) == (if Matches(c, pat) then 1 else 0)
  {
    forall pat: Pattern
      ensures Occurrences([c], pat) == (if Matches(c, pat) then 1 else 0)
    {
      assert [c][1..] == [];
    }
  }

  /** A trace without QBUF calls trivially respects buffer ownership. */
  lemma {:induction false} NoQueueCalls(k: Kernel, t: seq<Syscall>)
    requires forall j :: 0 <= j < |t| ==> !t[j].Queue?
    ensures QueuesFromApp(k, t)
    decreases |t|
  {
    if |t| > 0 {
      NoQueueCalls(Effect(k, t[0]), t[1..]);
    }
  }

  /** The device is opened, then only calls that change nothing follow. */
  lemma OpenThenInert(k: Kernel, t: seq<Syscall>)
    requires |t| > 0 && t[0] == Open(true)
    requires forall j :: 1 <= j < |t| ==> Inert(t[j])
    ensures Apply(k, t) == k.(fdOpen := true)
    ensures QueuesFromApp(k, t)
    ensures forall pat: Pattern :: Occurrences(t, pat) == 0
  {
    ApplyInert(k.(fdOpen := true), t[1..]);
  }
}

=== FILE: v4l2.dfy ===
/** The slice of the Linux V4L2 multi-planar capture interface the camera
    context relies on: plane limits, pixel-format tags, the negotiated
    format and the two parties that can own a buffer. */
module V4l2 {

  /** VIDEO_MAX_PLANES: the size of every per-plane array. */
  const MaxPlanes: nat := 8

  newtype byte = x: int | 0 <= x < 256

  /** The kernel never reports more planes than VIDEO_MAX_PLANES. */
  type PlaneCount = n: nat | n <= MaxPlanes

  /** A fixed-size per-plane array of unsigned values (plane_fmt[].sizeimage,
      planes[].length). Entries past the reported plane count hold whatever
      the array held before the call. */
  type PlaneArray = s: seq<nat> | |s| == MaxPlanes witness [0, 0, 0, 0, 0, 0, 0, 0]

  /** v4l2_fourcc: four ASCII characters packed little-endian into 32 bits. */
  function FourCC(a: char, b: char, c: char, d: char): nat
  {
    (a as int) + 0x100 * (b as int) + 0x1_0000 * (c as int) + 0x100_0000 * (d as int)
  }

  const PixNV12: nat := FourCC('N', 'V', '1', '2')
  const PixNV21: nat := FourCC('N', 'V', '2', '1')
  const PixNV24: nat := FourCC('N', 'V', '2', '4')

  /** The multi-planar pixel format as reported by G_FMT / S_FMT. */
  datatype Format = Format(
    width: nat,
    height: nat,
    pixelFormat: nat,
    numPlanes: PlaneCount,
    sizeImage: PlaneArray)

  /** Who may touch a buffer: the device while it is queued, the
      application once it has been dequeued. */
  datatype Owner = Device | App

  /** One entry of the context's plane-pointer array: NULL as left by the
      zeroing allocation, MAP_FAILED, or a live mapping. */
  datatype Slot = Null | MapFailed | Mapped
}

=== FILE: wrappers.dfy ===
/** Failure-carrying datatypes shared by the model. */
module Wrappers {

  /** A value that may be missing; stands for a pointer that may be NULL
      or an ioctl reply that may be an error. */
  datatype Option<+T> = None | Some(value: T)

  /** Either a value or the reason there is none. */
  datatype Result<+T, +E> = Success(value: T) | Failure(error: E)
}
